=== FILE: README.md ===
# jMySQLCli — a Dafny model of its command-line core

jMySQLCli is a small Java command-line client. It reads a properties file,
connects to a MySQL database, runs either one query or a numbered list of SQL
statements, and prints each result set to standard output as delimited text.
Update counts and errors go to standard error.

This project models the pure logic inside `jMySQLCli.java` as Dafny functions
over immutable values. The properties file and the environment are plain
`map<string, string>` values. A result set is a list of column labels plus
rows of cells, where an absent cell (`None`) is SQL NULL. The database is a
value that answers each statement given the statements already executed on the
connection, so a statement sees the effects of the earlier ones.

Modules:

- `Options`: `Option` (standing in for Java's `null`) and map lookup.
- `Decimal`: the decimal text of integers, which the program writes through
  string concatenation (`"sql." + i`, the update count), plus the parser that
  reads it back.
- `Delimited`: the rendering block that `executeQuery` and `execute` share.
  It writes an optional header line, then one line per row. Cells are joined
  by the column separator and every line ends with the row separator. Nothing
  is escaped, and SQL NULL prints as `null`. The Java loops are modelled as
  methods (`EmitLine`, `EmitResultSet`) and proved equal to the declarative
  definition.
- `Config`: `Properties.getProperty` defaults, `Boolean.parseBoolean`,
  `getFirstNonNull` and credential priority (the environment wins over the
  file), plus the choice between the two `DriverManager.getConnection`
  overloads.
- `Selection`: the choice between the numbered `sql.1, sql.2, …` list (bounded
  by `Short.MAX_VALUE`) and the single `query`.
- `Dispatch`: `execute`'s loop over the results of one statement. Result sets
  go to standard output. Update counts become `### UPDATE ROW COUNT:` lines on
  standard error. Standard error is modelled as a list of diagnostic lines;
  `DiagnosticText` gives the exact text of each.
- `Program`: `main` as a function of the properties, the environment and the
  database. The first failing statement ends the run. `RunBatch` handles each
  statement's results with `execute`'s loop as written; `RunBatchIntended`
  handles every result (see Findings).

## Model

| member | source | states |
|---|---|---|
| Decimal.NatToDecimal | src/main/java/org/javastack/jmysqlcli/jMySQLCli.java:98 | the index in the `sql.` key is printed as a non-empty string of digits with no leading zero |
| Decimal.ParseNatOfNatToDecimal | src/main/java/org/javastack/jmysqlcli/jMySQLCli.java:98 | reading the printed index back gives the index: the decimal form is lossless |
| Decimal.NatToDecimalInjective | src/main/java/org/javastack/jmysqlcli/jMySQLCli.java:97-98 | distinct loop indices give distinct keys `sql.i`, in both directions |
| Decimal.IntToDecimal | src/main/java/org/javastack/jmysqlcli/jMySQLCli.java:226 | the printed update count starts with a minus sign exactly when the count is negative |
| Decimal.ParseIntOfIntToDecimal | src/main/java/org/javastack/jmysqlcli/jMySQLCli.java:225-226 | the printed update count reads back as the same integer |
| Delimited.EmitLine | src/main/java/org/javastack/jmysqlcli/jMySQLCli.java:152-158 | the column loop (print the cell, then the separator when `i < columns`, then the row separator after the loop) writes exactly the joined cells plus one row separator, with no separator after the last cell and only the row separator for zero columns |
| Delimited.EmitResultSet | src/main/java/org/javastack/jmysqlcli/jMySQLCli.java:150-170 | the header block followed by the `while (rs.next())` loop writes exactly the declared lines: the header line when wanted, then one line per row in arrival order |
| Delimited.JoinLayout | src/main/java/org/javastack/jmysqlcli/jMySQLCli.java:162-168 | in a line of n ≥ 1 cells, each cell appears verbatim at its offset, in column order. Exactly n−1 column separators are inserted, one between each adjacent pair and none after the last, and the length is the cells' lengths plus n−1 separators |
| Delimited.LineLayout | src/main/java/org/javastack/jmysqlcli/jMySQLCli.java:162-168 | a line of n ≥ 1 cells is as long as its cells plus n−1 column separators plus one row separator, and the row separator starts right after the last cell. A line of zero columns is the row separator alone |
| Delimited.EmptyResultSet | src/main/java/org/javastack/jmysqlcli/jMySQLCli.java:151-161 | with zero rows the output is exactly the header line, or empty when the header is off |
| Delimited.FormatLayout | src/main/java/org/javastack/jmysqlcli/jMySQLCli.java:150-169 | the rendered text starts with the header line when it is wanted. Every row's line sits right after the header and all earlier rows, and nothing follows the last line |
| Delimited.NoEscaping | src/main/java/org/javastack/jmysqlcli/jMySQLCli.java:162-168 | row `["a","b;c"]` with `;` and `\n` prints exactly `a;b;c\n`: a separator inside a value is not escaped |
| Delimited.AmbiguousWithoutEscaping | src/main/java/org/javastack/jmysqlcli/jMySQLCli.java:162-168 | because nothing is escaped, two different rows can print the same line |
| Delimited.NullPrintsAsWord | src/main/java/org/javastack/jmysqlcli/jMySQLCli.java:163 | SQL NULL prints as `null` and cannot be told apart from the string value `"null"` |
| Config.FirstNonNull | src/main/java/org/javastack/jmysqlcli/jMySQLCli.java:178-185 | the result is null exactly when every argument is null. Otherwise it is an argument that no non-null argument precedes |
| Config.FirstOfTwo | src/main/java/org/javastack/jmysqlcli/jMySQLCli.java:86-89 | with two arguments, the first when it is set and the second otherwise |
| Config.ParseBooleanIsLowerCaseTrue | src/main/java/org/javastack/jmysqlcli/jMySQLCli.java:91-92 | `header.wanted` is read as true exactly when its value lower-cases to `true` |
| Config.ParseBooleanExamples | src/main/java/org/javastack/jmysqlcli/jMySQLCli.java:91-92 | `true`, `TRUE` and `True` are true; `yes`, `1`, the empty string and ` true` are false |
| Config.Settings | src/main/java/org/javastack/jmysqlcli/jMySQLCli.java:91-94 | an absent `header.wanted` means true, and a present one means true exactly when it lower-cases to `true`. Each separator is its property, or `;` and `\n` when absent |
| Config.DefaultSettings | src/main/java/org/javastack/jmysqlcli/jMySQLCli.java:48-56 | with no properties, the settings are header on, `;` and `\n` |
| Config.ResolveCredentials | src/main/java/org/javastack/jmysqlcli/jMySQLCli.java:86-89 | `MYSQL_USER`/`MYSQL_PASSWORD` win whenever set (even when empty). Otherwise the file's `user`/`password` are used, and otherwise the credential is absent |
| Config.ChooseConnection | src/main/java/org/javastack/jmysqlcli/jMySQLCli.java:127-131 | the credentialed `getConnection` is chosen if and only if both user and password are non-null, and it carries those values and the URL |
| Config.EnvironmentOverridesFile | src/main/java/org/javastack/jmysqlcli/jMySQLCli.java:85-90 | with both variables set, the connection uses them, and changing the file's `user`/`password` has no effect |
| Config.NoCredentialsNoUrl | src/main/java/org/javastack/jmysqlcli/jMySQLCli.java:85-89 | with no user anywhere and no `url` property, the URL-only call on the test URL is made |
| Selection.CollectBatch | src/main/java/org/javastack/jmysqlcli/jMySQLCli.java:96-104 | the `for` loop with `break` collects `sql.1 … sql.k`. Each is non-empty, k ≤ 32766, and `sql.(k+1)` is empty or absent unless the index bound was hit |
| Selection.BatchFromIsRun | src/main/java/org/javastack/jmysqlcli/jMySQLCli.java:97-104 | from any index, the selected run is bounded by `Short.MAX_VALUE` and consists of non-empty consecutive keys, and it stops at an empty or absent key |
| Selection.MaximalRunUnique | src/main/java/org/javastack/jmysqlcli/jMySQLCli.java:97-104 | the properties determine the statement list uniquely |
| Selection.SelectStatementsSpec | src/main/java/org/javastack/jmysqlcli/jMySQLCli.java:96-107 | the numbered list is chosen if and only if `sql.1` is non-empty, and then it is the maximal run, with at least one statement. Otherwise exactly one query runs: `query`, or `SELECT 'OK' AS TEST` when it is absent |
| Selection.CollectBatchAgrees | src/main/java/org/javastack/jmysqlcli/jMySQLCli.java:97-104 | the loop and the functional selection give the same list |
| Dispatch.ExecuteAsWritten | src/main/java/org/javastack/jmysqlcli/jMySQLCli.java:196-229 | the `do`/`while (getMoreResults())` loop handles the first result of either kind, then only the result sets that immediately follow. With no result at all it reports an update count of -1 |
| Dispatch.DispatchAppend | src/main/java/org/javastack/jmysqlcli/jMySQLCli.java:197-229 | handling every result (`DispatchAll`, the corrected loop of the Findings row): handling results is a fold; handling `a + b` writes what `a` writes, then what `b` writes |
| Dispatch.DispatchAllStreams | src/main/java/org/javastack/jmysqlcli/jMySQLCli.java:198-228 | handling every result (`DispatchAll`, the corrected loop of the Findings row): standard output is every result set's rendering in arrival order and nothing else. Standard error is one `UPDATE ROW COUNT` line per update count in arrival order and nothing else |
| Dispatch.SingleResultSetMatchesQuery | src/main/java/org/javastack/jmysqlcli/jMySQLCli.java:199-223 | for a single result set, `execute` writes exactly the rendering `executeQuery` writes, and nothing to standard error |
| Dispatch.AsWrittenCompleteWithoutLaterCounts | src/main/java/org/javastack/jmysqlcli/jMySQLCli.java:197-229 | when no update count follows the first result, the loop as written handles every result |
| Dispatch.AsWrittenLosesLaterCount | src/main/java/org/javastack/jmysqlcli/jMySQLCli.java:224-229 | an update count after the first result makes the loop as written report fewer diagnostics than there are update counts |
| Dispatch.AsWrittenAgreesIff | src/main/java/org/javastack/jmysqlcli/jMySQLCli.java:196-229 | the loop as written handles every result if and only if no update count follows the first result |
| Dispatch.LaterUpdateCountDropped | src/main/java/org/javastack/jmysqlcli/jMySQLCli.java:229 | for a result set, update count 3, result set: as written, only the first result set is printed. Handling every result prints both result sets and the count line |
| Dispatch.UpdateCountText | src/main/java/org/javastack/jmysqlcli/jMySQLCli.java:225-226 | counts 3 and -1 are written as `### UPDATE ROW COUNT: 3` and `### UPDATE ROW COUNT: -1` lines |
| Program.Run | src/main/java/org/javastack/jmysqlcli/jMySQLCli.java:85-108 | the connection uses the `url` property or the test URL, and it is credentialed exactly when a user and a password are found in the environment or the file. With an empty or absent `sql.1`, the `query` property runs, or the test query when it is absent. Otherwise the numbered run `sql.1, sql.2, …` runs |
| Program.RunQuery | src/main/java/org/javastack/jmysqlcli/jMySQLCli.java:113-176 | a query that succeeds writes its rendering to standard output and nothing to standard error. A failing query writes nothing to standard output, and standard error gets `### ERROR QUERY` (line 173) and then the exception from `main`'s handler (lines 113-114). Standard error is empty exactly when the query succeeds |
| Program.QueryFailureText | src/main/java/org/javastack/jmysqlcli/jMySQLCli.java:113-174 | a failing query's standard error is exactly `### ERROR QUERY: <query>` (line 173) and then `### EXCEPTION: <t>` from `main`'s handler (line 114), one line each, where `<t>` is the thrown exception's `toString()`: its class name, then `: ` and the localized message when there is one |
| Program.ExecuteMatchesExecuteQuery | src/main/java/org/javastack/jmysqlcli/jMySQLCli.java:202-222 | a statement answered by one result set writes exactly the same through `execute` as through `executeQuery` (the block at lines 150-170) |
| Program.RunBatchStopsAtFailure | src/main/java/org/javastack/jmysqlcli/jMySQLCli.java:97-104 | nothing after the first failing statement runs or writes anything: the output does not depend on the database's answers to later statements |
| Program.RunBatchFailureReported | src/main/java/org/javastack/jmysqlcli/jMySQLCli.java:230-233 | a failing statement ends standard error with `### ERROR SQL: <sql>` (line 231) followed by `### EXCEPTION: <t>` from `main`'s handler (lines 113-114), where `<t>` is the thrown exception's `toString()`: its class name, then `: ` and the localized message when there is one |
| Program.RunBatchStdout | src/main/java/org/javastack/jmysqlcli/jMySQLCli.java:97-104 | when every statement executes, standard output is each statement's output in statement order, with nothing between them |
| Program.RunBatchFailureIff | src/main/java/org/javastack/jmysqlcli/jMySQLCli.java:97-104 | an `### ERROR SQL` line appears on standard error if and only if some statement of the run fails |
| Program.RepeatedStatementReported | src/main/java/org/javastack/jmysqlcli/jMySQLCli.java:97-104 | the same statement text can succeed and then fail, as a repeated insert on a unique key does: the run reports the row count, then the failing statement and its exception |
| Program.RunBatchAgreesWithIntended | src/main/java/org/javastack/jmysqlcli/jMySQLCli.java:196-229 | when no statement's answer has an update count after its first result, the run as the program performs it writes exactly what handling every result would write |

## Left out

- Loading the JDBC driver (`Class.forName`), `DriverManager`, `Statement` and `ResultSet` cursors are library calls. The model receives their results as values: a `Database` answering statement texts, and a result set as labels plus rows.
- Reading the properties file and `System.getenv` are I/O and ambient state; their contents are passed in as maps. `jmysqlcli.config` only names the file whose contents become the `Properties` map.
- `jmysqlcli.verbose` is taken to be false, so standard error is the non-verbose one. With it on, the source also prints `### QUERY`/`### SQL` lines before a statement and a stack trace after `### EXCEPTION`.
- Verbose logging (`### LOADING CONFIG`, `### CONNECTING`, `### QUERY`, `### SQL`, `### END`), `printStackTrace` and the flushes have no functional content.
- A failure to load the configuration (`### ERROR LOADING CONFIG`) or to connect (`### ERROR CONNECTING`) is I/O that happens before any statement runs. It is not modelled.
- An exception thrown part-way through a statement's results, after some output was written, is not modelled. A statement either executes, giving all its results, or fails before writing anything.
- How standard output and standard error interleave is not modelled. Each stream is modelled on its own.
- `println`'s line separator is modelled as `\n`.
- `ResultSet.getObject(i).toString()` for non-string column types (numbers, dates) is not modelled. A cell is given as its printed text, and only SQL NULL is treated specially.
- Each row is assumed to hold one cell per column, as a JDBC result set guarantees. The rendering prints each row's own cells.
- Config.ParseBooleanIsLowerCaseTrue: `String.equalsIgnoreCase` is modelled with ASCII case mapping only. No non-ASCII character maps to the letters of `true` under Java's case mapping, so the result is the same.
- Program.Run: its own contract ties the output to `Program.RunQuery` or `Program.RunBatch`. What a numbered run writes is stated by `Program.RunBatchStdout`, `Program.RunBatchStopsAtFailure`, `Program.RunBatchFailureReported` and `Program.RunBatchFailureIff`.
- The database's answer is a function of the statements sent before on the connection. State outside the connection (other clients, time) is folded into that function, so it is fixed for a whole run.

## Findings

| source | as written | input that shows it | evidently intended | confidence | as-written member | corrected member |
|---|---|---|---|---|---|---|
| src/main/java/org/javastack/jmysqlcli/jMySQLCli.java:229 | `while (haveRS = stmt.getMoreResults())` ends the loop at the next update count, because JDBC's `getMoreResults` returns false for an update count as well as at the end. The `else` branch for update counts is therefore reachable only for the first result | a statement whose results are a result set, an update count of 3, then a result set: only the first result set is printed, and the update count and the second result set are lost | every result is handled in arrival order: result sets to standard output, update counts to standard error | medium, not executed | Dispatch.LaterUpdateCountDropped | Dispatch.DispatchAllStreams |

=== FILE: config.dfy ===
/** Configuration and credential resolution in `main` and `createConnection`:
    properties with defaults, the environment taking priority over the file
    for the credentials, and the choice between the two connection calls. */
module Config {
  import opened Options
  import opened Delimited

  /** The loaded `jmysqlcli.properties`; an absent key is a missing entry. */
  type Properties = map<string, string>

  /** The process environment; an unset variable is a missing entry. */
  type Environment = map<string, string>

  const DefaultHeaderWanted: string := "true"
  const DefaultColumnSeparator: string := ";"
  const DefaultRowSeparator: string := "\n"
  const TestUrl: string := "jdbc:mysql://localhost/test?user=test&password=test"
  const TestQuery: string := "SELECT 'OK' AS TEST"

  /** `Properties.getProperty(key, default)`. */
  function GetProperty(p: Properties, key: string, default: string): string {
    Lookup(p, key).GetOr(default)
  }

  // ---------------------------------------------------------------------------
  // getFirstNonNull

  /** `getFirstNonNull`: the first argument that is not null, scanning left
      to right, or null when every argument is null. */
  function FirstNonNull(values: seq<Option<string>>): (r: Option<string>)
    ensures r.None? <==> forall i :: 0 <= i < |values| ==> values[i].None?
    ensures r.Some? ==> exists i :: 0 <= i < |values| && values[i] == r && NoneBefore(values, i)
  {
    if |values| == 0 then None
    else if values[0].Some? then
      assert NoneBefore(values, 0);
      values[0]
    else
      var r := FirstNonNull(values[1..]);
      assert r.Some? ==> exists i :: 0 <= i < |values| && values[i] == r && NoneBefore(values, i) by {
        if r.Some? {
          var i :| 0 <= i < |values[1..]| && values[1..][i] == r && NoneBefore(values[1..], i);
          assert values[i + 1] == r && NoneBefore(values, i + 1);
        }
      }
      r
  }

  /** With two arguments: the first when it is set, the second otherwise. */
  lemma FirstOfTwo(first: Option<string>, second: Option<string>)
    ensures FirstNonNull([first, second]) == if first.Some? then first else second
  {
  }

  predicate NoneBefore(values: seq<Option<string>>, i: nat)
    requires i <= |values|
  {
    forall j :: 0 <= j < i ==> values[j].None?
  }

  // ---------------------------------------------------------------------------
  // Boolean.parseBoolean

  function AsciiUpper(c: char): char {
    if 'a' <= c <= 'z' then (c as int - 32) as char else c
  }

  function AsciiLower(c: char): char {
    if 'A' <= c <= 'Z' then (c as int + 32) as char else c
  }

  /** `String.equalsIgnoreCase` on one pair of characters: equal, equal once
      upper-cased, or equal once upper-cased and lower-cased again. */
  predicate CharsEqualIgnoreCase(a: char, b: char) {
    a == b || AsciiUpper(a) == AsciiUpper(b) || AsciiLower(AsciiUpper(a)) == AsciiLower(AsciiUpper(b))
  }

  predicate EqualsIgnoreCase(s: string, t: string) {
    |s| == |t| && forall i :: 0 <= i < |s| ==> CharsEqualIgnoreCase(s[i], t[i])
  }

  /** `Boolean.parseBoolean`: true exactly for "true" in any letter case. */
  function ParseBoolean(s: string): bool {
    EqualsIgnoreCase(s, "true")
  }

  function LowerCase(s: string): (r: string)
    ensures |r| == |s|
  {
    seq(|s|, i requires 0 <= i < |s| => AsciiLower(s[i]))
  }

  /** `parseBoolean` accepts a string exactly when it lower-cases to "true". */
  lemma ParseBooleanIsLowerCaseTrue(s: string)
    ensures ParseBoolean(s) <==> LowerCase(s) == "true"
  {
  }

  lemma ParseBooleanExamples()
    ensures ParseBoolean("true") && ParseBoolean("TRUE") && ParseBoolean("True")
    ensures !ParseBoolean("yes") && !ParseBoolean("1") && !ParseBoolean("") && !ParseBoolean(" true")
  {
  }

  // ---------------------------------------------------------------------------
  // Rendering settings

  /** The header flag and the two separators, each from its property or its default. */
  function Settings(p: Properties): (cfg: FormatConfig)
    ensures "header.wanted" !in p ==> cfg.headerWanted
    ensures "header.wanted" in p ==> (cfg.headerWanted <==> LowerCase(p["header.wanted"]) == "true")
    ensures cfg.columnSeparator == (if "column.separator" in p then p["column.separator"] else ";")
    ensures cfg.rowSeparator == (if "row.separator" in p then p["row.separator"] else "\n")
  {
    assert "header.wanted" in p ==> (ParseBoolean(p["header.wanted"]) <==> LowerCase(p["header.wanted"]) == "true") by {
      if "header.wanted" in p {
        ParseBooleanIsLowerCaseTrue(p["header.wanted"]);
      }
    }
    assert ParseBoolean(DefaultHeaderWanted);
    FormatConfig(
      ParseBoolean(GetProperty(p, "header.wanted", DefaultHeaderWanted)),
      GetProperty(p, "column.separator", DefaultColumnSeparator),
      GetProperty(p, "row.separator", DefaultRowSeparator))
  }

  /** With none of the three keys set, the rendering is a header line, `;`
      between columns and a line feed after every line. */
  lemma DefaultSettings()
    ensures Settings(map[]) == FormatConfig(true, ";", "\n")
  {
  }

  // ---------------------------------------------------------------------------
  // Credentials and the connection call

  datatype Credentials = Credentials(user: Option<string>, password: Option<string>)

  /** `MYSQL_USER` / `MYSQL_PASSWORD` when set, otherwise the file's `user` /
      `password`, otherwise absent. */
  function ResolveCredentials(p: Properties, env: Environment): (c: Credentials)
    ensures "MYSQL_USER" in env ==> c.user == Some(env["MYSQL_USER"])
    ensures "MYSQL_USER" !in env ==> c.user == Lookup(p, "user")
    ensures "MYSQL_PASSWORD" in env ==> c.password == Some(env["MYSQL_PASSWORD"])
    ensures "MYSQL_PASSWORD" !in env ==> c.password == Lookup(p, "password")
  {
    FirstOfTwo(Lookup(env, "MYSQL_USER"), Lookup(p, "user"));
    FirstOfTwo(Lookup(env, "MYSQL_PASSWORD"), Lookup(p, "password"));
    Credentials(
      FirstNonNull([Lookup(env, "MYSQL_USER"), Lookup(p, "user")]),
      FirstNonNull([Lookup(env, "MYSQL_PASSWORD"), Lookup(p, "password")]))
  }

  /** The two `DriverManager.getConnection` overloads the program may call. */
  datatype ConnectionCall =
    | WithCredentials(url: string, user: string, password: string)
    | UrlOnly(url: string)

  /** The credentialed call is used only when both user and password are known. */
  function ChooseConnection(url: string, c: Credentials): (call: ConnectionCall)
    ensures call.url == url
    ensures call.WithCredentials? <==> c.user.Some? && c.password.Some?
    ensures call.WithCredentials? ==> call.user == c.user.value && call.password == c.password.value
  {
    if c.user.Some? && c.password.Some? then WithCredentials(url, c.user.value, c.password.value)
    else UrlOnly(url)
  }

  /** The connection `main` opens: the `url` property (or the test URL) and
      the resolved credentials. */
  function ResolveConnection(p: Properties, env: Environment): ConnectionCall {
    ChooseConnection(GetProperty(p, "url", TestUrl), ResolveCredentials(p, env))
  }

  /** The environment wins over the file: with both variables set, the file's
      `user` and `password` play no part in the connection call. */
  lemma EnvironmentOverridesFile(p: Properties, env: Environment, user: string, password: string)
    requires "MYSQL_USER" in env && "MYSQL_PASSWORD" in env
    ensures ResolveConnection(p, env)
         == WithCredentials(GetProperty(p, "url", TestUrl), env["MYSQL_USER"], env["MYSQL_PASSWORD"])
    ensures ResolveConnection(p["user" := user]["password" := password], env) == ResolveConnection(p, env)
  {
  }

  /** A file with neither credential, and an environment with neither, gives
      the URL-only call on the test URL when no `url` is configured. */
  lemma NoCredentialsNoUrl(p: Properties, env: Environment)
    requires "user" !in p && "MYSQL_USER" !in env && "url" !in p
    ensures ResolveConnection(p, env) == UrlOnly(TestUrl)
  {
  }
}

=== FILE: decimal.dfy ===
/** Decimal rendering of integers, as Java's string concatenation does it
    (`"sql." + i` and `"### UPDATE ROW COUNT: " + rcount`), and its inverse. */
module Decimal {
  import opened Options

  predicate IsDigit(c: char) {
    '0' <= c <= '9'
  }

  predicate AllDigits(s: string) {
    forall i :: 0 <= i < |s| ==> IsDigit(s[i])
  }

  function DigitChar(d: nat): (c: char)
    requires d < 10
    ensures IsDigit(c)
    ensures c as int - '0' as int == d
  {
    ('0' as int + d) as char
  }

  function DigitValue(c: char): (d: nat)
    requires IsDigit(c)
    ensures d < 10 && DigitChar(d) == c
  {
    c as int - '0' as int
  }

  /** The shortest decimal numeral of `n`: no sign and no leading zero. */
  function NatToDecimal(n: nat): (s: string)
    ensures |s| >= 1 && AllDigits(s)
    ensures s[0] == '0' ==> s == "0"
    decreases n
  {
    if n < 10 then [DigitChar(n)] else NatToDecimal(n / 10) + [DigitChar(n % 10)]
  }

  /** The value of a string of digits, most significant first. */
  function DigitsValue(s: string): nat
    requires AllDigits(s)
  {
    if s == [] then 0 else DigitsValue(s[..|s| - 1]) * 10 + DigitValue(s[|s| - 1])
  }

  /** Reads back a canonical numeral; anything else is rejected. */
  function ParseNat(s: string): (r: Option<nat>)
    ensures r.Some? ==> |s| >= 1 && AllDigits(s)
  {
    if |s| >= 1 && AllDigits(s) && (s[0] != '0' || |s| == 1) then Some(DigitsValue(s)) else None
  }

  lemma {:induction false} DigitsValueOfNatToDecimal(n: nat)
    ensures DigitsValue(NatToDecimal(n)) == n
    decreases n
  {
    var s := NatToDecimal(n);
    if n >= 10 {
      DigitsValueOfNatToDecimal(n / 10);
      assert s[..|s| - 1] == NatToDecimal(n / 10);
    }
  }

  /** Printing a natural number and reading it back gives the same number. */
  lemma ParseNatOfNatToDecimal(n: nat)
    ensures ParseNat(NatToDecimal(n)) == Some(n)
  {
    DigitsValueOfNatToDecimal(n);
  }

  /** Distinct numbers print differently, so `sql.1`, `sql.2`, ... are distinct keys. */
  lemma NatToDecimalInjective(a: nat, b: nat)
    ensures NatToDecimal(a) == NatToDecimal(b) <==> a == b
  {
    ParseNatOfNatToDecimal(a);
    ParseNatOfNatToDecimal(b);
  }

  /** `Integer.toString`: a minus sign for negative values, then the magnitude. */
  function IntToDecimal(i: int): (s: string)
    ensures |s| >= 1
    ensures s[0] == '-' <==> i < 0
  {
    if i < 0 then "-" + NatToDecimal(-i) else NatToDecimal(i)
  }

  /** Reads back what `IntToDecimal` prints; `-0` is not canonical and is rejected. */
  function ParseInt(s: string): Option<int> {
    if |s| >= 2 && s[0] == '-' then
      match ParseNat(s[1..])
      case Some(m) => if m == 0 then None else Some(-(m as int))
      case None => None
    else
      match ParseNat(s)
      case Some(m) => Some(m)
      case None => None
  }

  /** Printing an integer and reading it back gives the same integer. */
  lemma ParseIntOfIntToDecimal(i: int)
    ensures ParseInt(IntToDecimal(i)) == Some(i)
  {
    if i < 0 {
      ParseNatOfNatToDecimal(-i);
      assert IntToDecimal(i)[1..] == NatToDecimal(-i);
    } else {
      ParseNatOfNatToDecimal(i);
    }
  }
}

=== FILE: delimited.dfy ===
/** The delimited-text rendering of one result set: an optional header line
    of column labels, then one line per row; cells joined by the column
    separator, every line closed by the row separator, nothing escaped.
    `executeQuery` (jMySQLCli.java lines 151-169) and `execute` (lines
    203-221) each carry their own copy of this block, and the two copies are
    the same text statement for statement; that is why one definition,
    `FormatResultSet`, stands for both, and why a result set prints the same
    through either path. */
module Delimited {
  import opened Options

  /** The three rendering settings read from the properties file. */
  datatype FormatConfig = FormatConfig(headerWanted: bool, columnSeparator: string, rowSeparator: string)

  /** One cell as `ResultSet.getObject` returns it; `None` is SQL NULL. */
  type Cell = Option<string>

  type Row = seq<Cell>

  /** A result set as a value: the column labels and the rows in arrival order. */
  datatype ResultSetData = ResultSetData(labels: seq<string>, rows: seq<Row>)

  /** What `PrintStream.print(Object)` writes for a null reference. */
  const NullText: string := "null"

  /** The text printed for one cell: the value itself, or `null` for SQL NULL. */
  function CellText(c: Cell): string {
    c.GetOr(NullText)
  }

  function RowTexts(row: Row): (texts: seq<string>)
    ensures |texts| == |row|
  {
    seq(|row|, i requires 0 <= i < |row| => CellText(row[i]))
  }

  /** `parts` with `sep` between adjacent parts and nowhere else. */
  function Join(parts: seq<string>, sep: string): string {
    if |parts| == 0 then ""
    else if |parts| == 1 then parts[0]
    else Join(parts[..|parts| - 1], sep) + sep + parts[|parts| - 1]
  }

  /** Plain concatenation: a join with the empty separator. */
  function Concat(parts: seq<string>): string {
    Join(parts, "")
  }

  /** One output line: the joined cells followed by one row separator. */
  function Line(cells: seq<string>, columnSeparator: string, rowSeparator: string): string {
    Join(cells, columnSeparator) + rowSeparator
  }

  function HeaderLine(rs: ResultSetData, cfg: FormatConfig): string {
    Line(rs.labels, cfg.columnSeparator, cfg.rowSeparator)
  }

  function RowLine(row: Row, cfg: FormatConfig): string {
    Line(RowTexts(row), cfg.columnSeparator, cfg.rowSeparator)
  }

  /** The lines of a rendered result set, in output order. */
  function Lines(rs: ResultSetData, cfg: FormatConfig): seq<string> {
    (if cfg.headerWanted then [HeaderLine(rs, cfg)] else [])
      + seq(|rs.rows|, i requires 0 <= i < |rs.rows| => RowLine(rs.rows[i], cfg))
  }

  /** The text a result set contributes to standard output. */
  function FormatResultSet(rs: ResultSetData, cfg: FormatConfig): string {
    Concat(Lines(rs, cfg))
  }

  // ---------------------------------------------------------------------------
  // Layout of a joined string

  /** Where part `k` starts when every earlier part is followed by `sep`. */
  function Offset(parts: seq<string>, sep: string, k: nat): nat
    requires k <= |parts|
  {
    if k == 0 then 0 else Offset(parts, sep, k - 1) + |parts[k - 1]| + |sep|
  }

  /** `piece` occurs in `s` starting at index `start`. */
  predicate PieceAt(s: string, start: nat, piece: string) {
    start + |piece| <= |s| && s[start..start + |piece|] == piece
  }

  lemma {:induction false} OffsetOfPrefix(parts: seq<string>, sep: string, m: nat, k: nat)
    requires k <= m <= |parts|
    ensures Offset(parts[..m], sep, k) == Offset(parts, sep, k)
    decreases k
  {
    if k > 0 {
      OffsetOfPrefix(parts, sep, m, k - 1);
    }
  }

  lemma PieceAtExtend(s: string, t: string, start: nat, piece: string)
    requires PieceAt(s, start, piece)
    ensures PieceAt(s + t, start, piece)
  {
  }

  lemma {:induction false} JoinLength(parts: seq<string>, sep: string)
    requires |parts| >= 1
    ensures |Join(parts, sep)| + |sep| == Offset(parts, sep, |parts|)
    decreases |parts|
  {
    var n := |parts|;
    if n >= 2 {
      JoinLength(parts[..n - 1], sep);
      OffsetOfPrefix(parts, sep, n - 1, n - 1);
    }
  }

  /** Splits a join into the join of all but the last part, one separator and the last part. */
  lemma JoinUnfold(parts: seq<string>, sep: string)
    requires |parts| >= 2
    ensures Join(parts, sep) == Join(parts[..|parts| - 1], sep) + (sep + parts[|parts| - 1])
  {
  }

  lemma {:induction false} JoinPart(parts: seq<string>, sep: string, k: nat)
    requires k < |parts|
    ensures PieceAt(Join(parts, sep), Offset(parts, sep, k), parts[k])
    decreases |parts|
  {
    var n := |parts|;
    var s := Join(parts, sep);
    if n == 1 {
      assert s[0..|parts[0]|] == parts[0];
    } else {
      var init := parts[..n - 1];
      var j := Join(init, sep);
      JoinUnfold(parts, sep);
      if k < n - 1 {
        JoinPart(init, sep, k);
        OffsetOfPrefix(parts, sep, n - 1, k);
        PieceAtExtend(j, sep + parts[n - 1], Offset(init, sep, k), init[k]);
      } else {
        JoinLength(init, sep);
        OffsetOfPrefix(parts, sep, n - 1, n - 1);
        assert s[|j| + |sep|..] == parts[n - 1];
      }
    }
  }

  lemma {:induction false} JoinSeparator(parts: seq<string>, sep: string, k: nat)
    requires k + 1 < |parts|
    ensures PieceAt(Join(parts, sep), Offset(parts, sep, k) + |parts[k]|, sep)
    decreases |parts|
  {
    var n := |parts|;
    var s := Join(parts, sep);
    var init := parts[..n - 1];
    var j := Join(init, sep);
    JoinUnfold(parts, sep);
    OffsetOfPrefix(parts, sep, n - 1, k);
    if k + 1 < n - 1 {
      JoinSeparator(init, sep, k);
      PieceAtExtend(j, sep + parts[n - 1], Offset(init, sep, k) + |init[k]|, sep);
    } else {
      JoinLength(init, sep);
      assert s[|j|..|j| + |sep|] == sep;
    }
  }

  /** Part `k` of `parts` appears verbatim at `Offset(k)` in the joined string. */
  predicate PartPlaced(parts: seq<string>, sep: string, k: nat)
    requires k < |parts|
  {
    PieceAt(Join(parts, sep), Offset(parts, sep, k), parts[k])
  }

  /** A separator follows part `k` of `parts` in the joined string. */
  predicate SeparatorPlaced(parts: seq<string>, sep: string, k: nat)
    requires k < |parts|
  {
    PieceAt(Join(parts, sep), Offset(parts, sep, k) + |parts[k]|, sep)
  }

  /** The joined string is exactly the parts, verbatim and in order, with one
      separator between each adjacent pair and none after the last: part `k`
      sits at `Offset(k)`, a separator follows every part but the last, and the
      length adds up to the parts plus `|parts| - 1` separators. */
  lemma JoinLayout(parts: seq<string>, sep: string)
    ensures |parts| == 0 ==> Join(parts, sep) == ""
    ensures |parts| >= 1 ==> |Join(parts, sep)| + |sep| == Offset(parts, sep, |parts|)
    ensures forall k :: 0 <= k < |parts| ==> PartPlaced(parts, sep, k)
    ensures forall k :: 0 <= k < |parts| - 1 ==> SeparatorPlaced(parts, sep, k)
  {
    if |parts| >= 1 {
      JoinLength(parts, sep);
    }
    forall k | 0 <= k < |parts|
      ensures PartPlaced(parts, sep, k)
    {
      JoinPart(parts, sep, k);
    }
    forall k | 0 <= k < |parts| - 1
      ensures SeparatorPlaced(parts, sep, k)
    {
      JoinSeparator(parts, sep, k);
    }
  }

  lemma ConcatSnoc(parts: seq<string>, last: string)
    ensures Concat(parts + [last]) == Concat(parts) + last
  {
  }

  lemma {:induction false} ConcatCons(first: string, rest: seq<string>)
    ensures Concat([first] + rest) == first + Concat(rest)
    decreases |rest|
  {
    if |rest| == 0 {
      assert [first] + rest == [first];
    } else {
      var init := rest[..|rest| - 1];
      var last := rest[|rest| - 1];
      ConcatCons(first, init);
      assert [first] + rest == ([first] + init) + [last];
      assert rest == init + [last];
      ConcatSnoc([first] + init, last);
      ConcatSnoc(init, last);
    }
  }

  // ---------------------------------------------------------------------------
  // The printing loops as the program runs them

  /** The column loop of `executeQuery`/`execute`: print each cell, print the
      column separator after every cell whose index is below the column count,
      then print the row separator once. */
  method EmitLine(cells: seq<string>, columnSeparator: string, rowSeparator: string)
    returns (out: string)
    ensures out == Line(cells, columnSeparator, rowSeparator)
  {
    var columns := |cells|;
    out := "";
    var i := 1;
    while i <= columns
      invariant 1 <= i <= columns + 1
      invariant out == Join(cells[..i - 1], columnSeparator) + (if 1 < i <= columns then columnSeparator else "")
    {
      assert cells[..i] == cells[..i - 1] + [cells[i - 1]];
      out := out + cells[i - 1];
      if i < columns {
        out := out + columnSeparator;
      }
      i := i + 1;
    }
    assert cells[..columns] == cells;
    out := out + rowSeparator;
  }

  /** The whole rendering block: the header loop when it is wanted, then the
      `while (rs.next())` loop over the rows in arrival order. */
  method EmitResultSet(rs: ResultSetData, cfg: FormatConfig) returns (out: string)
    ensures out == FormatResultSet(rs, cfg)
  {
    out := "";
    if cfg.headerWanted {
      out := EmitLine(rs.labels, cfg.columnSeparator, cfg.rowSeparator);
    }
    var r := 0;
    while r < |rs.rows|
      invariant 0 <= r <= |rs.rows|
      invariant out == FormatResultSet(ResultSetData(rs.labels, rs.rows[..r]), cfg)
    {
      var before := ResultSetData(rs.labels, rs.rows[..r]);
      var after := ResultSetData(rs.labels, rs.rows[..r + 1]);
      var line := EmitLine(RowTexts(rs.rows[r]), cfg.columnSeparator, cfg.rowSeparator);
      assert Lines(after, cfg) == Lines(before, cfg) + [line];
      ConcatSnoc(Lines(before, cfg), line);
      out := out + line;
      r := r + 1;
    }
    assert rs.rows[..r] == rs.rows;
  }

  // ---------------------------------------------------------------------------
  // Properties of the rendering

  /** With no rows the output is the header line alone, or nothing at all
      when the header is switched off. */
  lemma EmptyResultSet(labels: seq<string>, cfg: FormatConfig)
    ensures FormatResultSet(ResultSetData(labels, []), cfg)
         == (if cfg.headerWanted then Line(labels, cfg.columnSeparator, cfg.rowSeparator) else "")
  {
  }

  /** The line of row `i` sits in the rendered text right after the header
      line (when wanted) and the lines of rows `0 .. i-1`. */
  predicate RowLinePlaced(rs: ResultSetData, cfg: FormatConfig, i: nat)
    requires i < |rs.rows|
  {
    var h := if cfg.headerWanted then 1 else 0;
    && i + h < |Lines(rs, cfg)|
    && PieceAt(FormatResultSet(rs, cfg), Offset(Lines(rs, cfg), "", i + h), RowLine(rs.rows[i], cfg))
  }

  lemma RowLineAt(rs: ResultSetData, cfg: FormatConfig, i: nat)
    requires i < |rs.rows|
    ensures RowLinePlaced(rs, cfg, i)
  {
    var lines := Lines(rs, cfg);
    var h := if cfg.headerWanted then 1 else 0;
    assert |lines| == |rs.rows| + h;
    assert lines[i + h] == RowLine(rs.rows[i], cfg);
    JoinPart(lines, "", i + h);
  }

  /** The rendered text starts with the header line when the header is wanted,
      every row's line follows in row order, and the text ends where the last
      line ends. */
  lemma FormatLayout(rs: ResultSetData, cfg: FormatConfig)
    ensures cfg.headerWanted ==> PieceAt(FormatResultSet(rs, cfg), 0, HeaderLine(rs, cfg))
    ensures forall i :: 0 <= i < |rs.rows| ==> RowLinePlaced(rs, cfg, i)
    ensures |Lines(rs, cfg)| >= 1 ==> |FormatResultSet(rs, cfg)| == Offset(Lines(rs, cfg), "", |Lines(rs, cfg)|)
  {
    JoinLayout(Lines(rs, cfg), "");
    if cfg.headerWanted {
      var lines := Lines(rs, cfg);
      assert lines[0] == HeaderLine(rs, cfg);
      JoinPart(lines, "", 0);
    }
    forall i | 0 <= i < |rs.rows|
      ensures RowLinePlaced(rs, cfg, i)
    {
      RowLineAt(rs, cfg, i);
    }
  }

  /** The total length of `parts`, counted independently of any layout. */
  function TotalLength(parts: seq<string>): nat {
    if |parts| == 0 then 0 else TotalLength(parts[..|parts| - 1]) + |parts[|parts| - 1]|
  }

  /** Part `k` starts after the `k` earlier parts and `k` separators. */
  lemma {:induction false} OffsetIsSum(parts: seq<string>, sep: string, k: nat)
    requires k <= |parts|
    ensures Offset(parts, sep, k) == TotalLength(parts[..k]) + k * |sep|
    decreases k
  {
    if k > 0 {
      OffsetIsSum(parts, sep, k - 1);
      assert parts[..k][..k - 1] == parts[..k - 1];
    }
  }

  /** A line of `n >= 1` cells is exactly as long as its cells plus `n - 1`
      column separators plus one row separator, and the row separator sits
      right after the last cell; a line of no cells is the row separator
      alone. */
  lemma {:induction false} LineLayout(cells: seq<string>, columnSeparator: string, rowSeparator: string)
    ensures |cells| == 0 ==> Line(cells, columnSeparator, rowSeparator) == rowSeparator
    ensures |cells| >= 1 ==>
              |Line(cells, columnSeparator, rowSeparator)|
              == TotalLength(cells) + (|cells| - 1) * |columnSeparator| + |rowSeparator|
    ensures |cells| >= 1 ==>
              PieceAt(Line(cells, columnSeparator, rowSeparator),
                      TotalLength(cells) + (|cells| - 1) * |columnSeparator|, rowSeparator)
  {
    if |cells| >= 1 {
      var n := |cells|;
      JoinLength(cells, columnSeparator);
      OffsetIsSum(cells, columnSeparator, n);
      assert cells[..n] == cells;
      assert (n - 1) * |columnSeparator| + |columnSeparator| == n * |columnSeparator|;
    }
  }

  /** Nothing is escaped: a separator inside a value is written verbatim. */
  lemma NoEscaping()
    ensures Line(["a", "b;c"], ";", "\n") == "a;b;c\n"
  {
  }

  /** Because nothing is escaped, two different rows can print the same line. */
  lemma AmbiguousWithoutEscaping()
    ensures ["a", "b;c"] != ["a;b", "c"]
    ensures Line(["a", "b;c"], ";", "\n") == Line(["a;b", "c"], ";", "\n")
  {
  }

  /** SQL NULL prints as the word `null`, so it cannot be told apart from the
      string value "null". */
  lemma NullPrintsAsWord(row: Row, i: nat)
    requires i < |row| && row[i].None?
    ensures RowTexts(row)[i] == "null"
    ensures RowTexts(row[i := Some("null")]) == RowTexts(row)
  {
  }
}

=== FILE: dispatch.dfy ===
/** The result loop of `execute`: one SQL text may yield several results,
    each either a result set or an update count. Result sets are rendered to
    standard output; update counts are reported on standard error. */
module Dispatch {
  import opened Decimal
  import opened Delimited

  /** Java's `int`, the type of `Statement.getUpdateCount`. */
  newtype int32 = x: int | -0x8000_0000 <= x < 0x8000_0000

  /** One result of an executed statement, in the order the driver delivers them. */
  datatype StmtResult =
    | ResultSet(data: ResultSetData)
    | UpdateCount(count: int32)

  /** One line the program prints on standard error. */
  datatype Diagnostic =
    | UpdateRowCount(count: int32)
    | ErrorSql(sql: string)
    | ErrorQuery(query: string)
    | Exception(thrownText: string)  // `"### EXCEPTION: " + t`: the Throwable's `toString()`

  /** The exact text of a diagnostic line; `println` ends it with `\n`,
      standing for the platform line separator. */
  function DiagnosticText(d: Diagnostic): string {
    match d
    case UpdateRowCount(n) => "### UPDATE ROW COUNT: " + IntToDecimal(n as int) + "\n"
    case ErrorSql(sql) => "### ERROR SQL: " + sql + "\n"
    case ErrorQuery(query) => "### ERROR QUERY: " + query + "\n"
    case Exception(thrownText) => "### EXCEPTION: " + thrownText + "\n"
  }

  /** The text standard error receives for a list of diagnostics. */
  function StderrText(ds: seq<Diagnostic>): string {
    Concat(seq(|ds|, i requires 0 <= i < |ds| => DiagnosticText(ds[i])))
  }

  /** What a piece of the program writes: the text on standard output and
      the diagnostic lines on standard error. */
  datatype Output = Output(stdout: string, stderr: seq<Diagnostic>)

  /** How one result set is turned into text; the program uses
      `Delimited.FormatResultSet` with its configured settings. */
  type Renderer = ResultSetData -> string

  const Silent: Output := Output("", [])

  /** Writing `a` and then `b`. */
  function Append(a: Output, b: Output): Output {
    Output(a.stdout + b.stdout, a.stderr + b.stderr)
  }

  /** `getUpdateCount` once the results are exhausted. */
  const NoMoreResults: int32 := -1

  /** One pass of the loop body: a result set is rendered to standard output,
      an update count becomes one line on standard error. */
  function Handle(r: StmtResult, render: Renderer): Output {
    match r
    case ResultSet(data) => Output(render(data), [])
    case UpdateCount(n) => Output("", [UpdateRowCount(n)])
  }

  /** Every result handled in arrival order: the loop `execute` is evidently
      meant to run. */
  function DispatchAll(results: seq<StmtResult>, render: Renderer): Output {
    if |results| == 0 then Silent
    else Append(DispatchAll(results[..|results| - 1], render), Handle(results[|results| - 1], render))
  }

  // ---------------------------------------------------------------------------
  // The loop as written

  /** The number of result sets at the front of `results`, before the first
      update count. */
  function LeadingResultSets(results: seq<StmtResult>): (k: nat)
    ensures k <= |results|
  {
    if |results| == 0 || !results[0].ResultSet? then 0 else 1 + LeadingResultSets(results[1..])
  }

  /** The first pass of the `do`-loop: `stmt.execute` reports whether the
      first result is a result set; if not, `getUpdateCount` is printed, which
      is -1 when there is no result at all. */
  function FirstPass(results: seq<StmtResult>, render: Renderer): Output {
    if |results| == 0 then Output("", [UpdateRowCount(NoMoreResults)]) else Handle(results[0], render)
  }

  /** The loop of `execute` as written: `do { ... } while (haveRS = stmt.getMoreResults())`.
      `getMoreResults` is false for an update count as well as at the end, so
      after the first result the loop only continues through result sets. */
  function DispatchAsWritten(results: seq<StmtResult>, render: Renderer): Output {
    if |results| == 0 then FirstPass(results, render)
    else Append(FirstPass(results, render), DispatchAll(results[1..][..LeadingResultSets(results[1..])], render))
  }

  /** `getUpdateCount` with the cursor at `pos`. */
  function CurrentUpdateCount(results: seq<StmtResult>, pos: nat): int32 {
    if pos < |results| && results[pos].UpdateCount? then results[pos].count else NoMoreResults
  }

  /** `execute`'s loop step by step, with the driver's result cursor at `pos`.
      The first pass of the `do`-loop runs unconditionally, so it is written
      out before the `while`. */
  method ExecuteAsWritten(results: seq<StmtResult>, render: Renderer) returns (out: Output)
    ensures out == DispatchAsWritten(results, render)
  {
    var haveRS := |results| > 0 && results[0].ResultSet?;
    var firstPass: Output;
    if haveRS {
      firstPass := Output(render(results[0].data), []);
    } else {
      var rcount := CurrentUpdateCount(results, 0);
      firstPass := Output("", [UpdateRowCount(rcount)]);
    }
    var pos := 1;
    haveRS := pos < |results| && results[pos].ResultSet?;
    var later := Silent;
    while haveRS
      invariant 1 <= pos && (|results| == 0 || pos <= |results|)
      invariant haveRS <==> pos < |results| && results[pos].ResultSet?
      invariant |results| == 0 ==> later == Silent
      invariant |results| > 0 ==> forall j :: 1 <= j < pos ==> results[j].ResultSet?
      invariant |results| > 0 ==> later == DispatchAll(results[1..pos], render)
      decreases |results| - pos
    {
      DispatchAllExtend(results, pos, render);
      later := Append(later, Output(render(results[pos].data), []));
      pos := pos + 1;
      haveRS := pos < |results| && results[pos].ResultSet?;
    }
    out := Append(firstPass, later);
    if |results| > 0 {
      LeadingResultSetsAt(results[1..], pos - 1);
      assert results[1..][..pos - 1] == results[1..pos];
    } else {
      assert out.stdout == "" && out.stderr == [UpdateRowCount(NoMoreResults)];
    }
  }

  lemma DispatchAllExtend(results: seq<StmtResult>, pos: nat, render: Renderer)
    requires 1 <= pos < |results|
    ensures DispatchAll(results[1..pos + 1], render)
         == Append(DispatchAll(results[1..pos], render), Handle(results[pos], render))
  {
    DispatchAllSnoc(results[1..pos], results[pos], render);
    assert results[1..pos + 1] == results[1..pos] + [results[pos]];
  }

  lemma {:induction false} LeadingResultSetsAt(results: seq<StmtResult>, k: nat)
    requires k <= |results|
    requires forall j :: 0 <= j < k ==> results[j].ResultSet?
    requires k == |results| || !results[k].ResultSet?
    ensures LeadingResultSets(results) == k
    decreases k
  {
    if k > 0 {
      LeadingResultSetsAt(results[1..], k - 1);
    }
  }

  lemma {:induction false} LeadingPrefixIsResultSets(results: seq<StmtResult>)
    ensures forall j :: 0 <= j < LeadingResultSets(results) ==> results[j].ResultSet?
    decreases |results|
  {
    if |results| > 0 && results[0].ResultSet? {
      LeadingPrefixIsResultSets(results[1..]);
    }
  }

  // ---------------------------------------------------------------------------
  // Properties of the dispatch

  lemma AppendAssociative(x: Output, y: Output, z: Output)
    ensures Append(Append(x, y), z) == Append(x, Append(y, z))
  {
  }

  lemma AppendSilent(x: Output)
    ensures Append(Silent, x) == x && Append(x, Silent) == x
  {
  }

  lemma DispatchAllSnoc(results: seq<StmtResult>, r: StmtResult, render: Renderer)
    ensures DispatchAll(results + [r], render) == Append(DispatchAll(results, render), Handle(r, render))
  {
  }

  /** Handling `a` and then `b` is handling `a + b`. */
  lemma {:induction false} DispatchAppend(a: seq<StmtResult>, b: seq<StmtResult>, render: Renderer)
    ensures DispatchAll(a + b, render) == Append(DispatchAll(a, render), DispatchAll(b, render))
    decreases |b|
  {
    if |b| == 0 {
      assert a + b == a;
      AppendSilent(DispatchAll(a, render));
    } else {
      var b' := b[..|b| - 1];
      var last := b[|b| - 1];
      DispatchAppend(a, b', render);
      assert a + b == (a + b') + [last];
      DispatchAllSnoc(a + b', last, render);
      assert b == b' + [last];
      DispatchAllSnoc(b', last, render);
      AppendAssociative(DispatchAll(a, render), DispatchAll(b', render), Handle(last, render));
    }
  }

  lemma DispatchAllCons(r: StmtResult, rest: seq<StmtResult>, render: Renderer)
    ensures DispatchAll([r] + rest, render) == Append(Handle(r, render), DispatchAll(rest, render))
  {
    DispatchAppend([r], rest, render);
    DispatchAllSnoc([], r, render);
    assert [] + [r] == [r];
    AppendSilent(Handle(r, render));
  }

  /** The result sets among `results`, in arrival order. */
  function ResultSetsOf(results: seq<StmtResult>): seq<ResultSetData> {
    if |results| == 0 then []
    else
      var last := results[|results| - 1];
      ResultSetsOf(results[..|results| - 1]) + (if last.ResultSet? then [last.data] else [])
  }

  /** The update counts among `results`, in arrival order. */
  function UpdateCountsOf(results: seq<StmtResult>): seq<int32> {
    if |results| == 0 then []
    else
      var last := results[|results| - 1];
      UpdateCountsOf(results[..|results| - 1]) + (if last.UpdateCount? then [last.count] else [])
  }

  function RenderAll(rss: seq<ResultSetData>, render: Renderer): seq<string> {
    seq(|rss|, i requires 0 <= i < |rss| => render(rss[i]))
  }

  function CountNotes(counts: seq<int32>): seq<Diagnostic> {
    seq(|counts|, i requires 0 <= i < |counts| => UpdateRowCount(counts[i]))
  }

  /** Standard output is the rendering of every result set, in arrival order,
      and nothing else; standard error is one update-count line per update
      count, in arrival order, and nothing else. */
  lemma {:induction false} DispatchAllStreams(results: seq<StmtResult>, render: Renderer)
    ensures DispatchAll(results, render).stdout == Concat(RenderAll(ResultSetsOf(results), render))
    ensures DispatchAll(results, render).stderr == CountNotes(UpdateCountsOf(results))
    decreases |results|
  {
    if |results| > 0 {
      var init := results[..|results| - 1];
      var last := results[|results| - 1];
      DispatchAllStreams(init, render);
      var before := DispatchAll(init, render);
      assert DispatchAll(results, render) == Append(before, Handle(last, render));
      if last.ResultSet? {
        assert RenderAll(ResultSetsOf(results), render)
            == RenderAll(ResultSetsOf(init), render) + [render(last.data)];
        ConcatSnoc(RenderAll(ResultSetsOf(init), render), render(last.data));
        assert UpdateCountsOf(results) == UpdateCountsOf(init);
        assert before.stderr + [] == before.stderr;
      } else {
        assert CountNotes(UpdateCountsOf(results))
            == CountNotes(UpdateCountsOf(init)) + [UpdateRowCount(last.count)];
        assert ResultSetsOf(results) == ResultSetsOf(init);
        assert before.stdout + "" == before.stdout;
      }
    }
  }

  /** A single result set prints exactly its rendering, which is what
      `executeQuery` prints for it, and nothing goes to standard error. */
  lemma SingleResultSetMatchesQuery(rs: ResultSetData, render: Renderer)
    ensures DispatchAsWritten([ResultSet(rs)], render) == Output(render(rs), [])
    ensures DispatchAll([ResultSet(rs)], render) == Output(render(rs), [])
  {
  }

  lemma {:induction false} NoUpdateCountsNoStderr(results: seq<StmtResult>, render: Renderer)
    requires forall j :: 0 <= j < |results| ==> results[j].ResultSet?
    ensures DispatchAll(results, render).stderr == []
    decreases |results|
  {
    if |results| > 0 {
      NoUpdateCountsNoStderr(results[..|results| - 1], render);
    }
  }

  lemma {:induction false} UpdateCountMeansStderr(results: seq<StmtResult>, j: nat, render: Renderer)
    requires j < |results| && results[j].UpdateCount?
    ensures DispatchAll(results, render).stderr != []
    decreases |results|
  {
    var n := |results|;
    if j < n - 1 {
      UpdateCountMeansStderr(results[..n - 1], j, render);
    }
  }

  /** With no update count after the first result, the loop as written
      handles every result. */
  lemma {:induction false} AsWrittenCompleteWithoutLaterCounts(results: seq<StmtResult>, render: Renderer)
    requires |results| >= 1
    requires forall j :: 1 <= j < |results| ==> results[j].ResultSet?
    ensures DispatchAsWritten(results, render) == DispatchAll(results, render)
  {
    var rest := results[1..];
    assert [results[0]] + rest == results;
    DispatchAllCons(results[0], rest, render);
    LeadingResultSetsAt(rest, |rest|);
    assert rest[..|rest|] == rest;
  }

  /** An update count after the first result is lost: the loop as written
      reports fewer diagnostics than there are update counts. */
  lemma {:induction false} AsWrittenLosesLaterCount(results: seq<StmtResult>, j: nat, render: Renderer)
    requires 1 <= j < |results| && results[j].UpdateCount?
    ensures |DispatchAsWritten(results, render).stderr| < |DispatchAll(results, render).stderr|
  {
    var rest := results[1..];
    assert [results[0]] + rest == results;
    DispatchAllCons(results[0], rest, render);
    var k := LeadingResultSets(rest);
    LeadingPrefixIsResultSets(rest);
    UpdateCountMeansStderr(rest, j - 1, render);
    NoUpdateCountsNoStderr(rest[..k], render);
  }

  /** The loop as written handles every result exactly when no update count
      follows the first result; any later update count is lost, together
      with everything after it. */
  lemma {:induction false} AsWrittenAgreesIff(results: seq<StmtResult>, render: Renderer)
    requires |results| >= 1
    ensures DispatchAsWritten(results, render) == DispatchAll(results, render)
        <==> forall j :: 1 <= j < |results| ==> results[j].ResultSet?
  {
    if forall j :: 1 <= j < |results| ==> results[j].ResultSet? {
      AsWrittenCompleteWithoutLaterCounts(results, render);
    } else {
      var j :| 1 <= j < |results| && !results[j].ResultSet?;
      AsWrittenLosesLaterCount(results, j, render);
    }
  }

  /** A result set, then an update count, then another result set: the loop
      as written prints the first result set and stops, so the update count
      and the second result set never appear. */
  lemma LaterUpdateCountDropped(rs: ResultSetData, render: Renderer)
    ensures DispatchAsWritten([ResultSet(rs), UpdateCount(3), ResultSet(rs)], render)
         == Output(render(rs), [])
    ensures DispatchAll([ResultSet(rs), UpdateCount(3), ResultSet(rs)], render)
         == Output(render(rs) + render(rs), [UpdateRowCount(3)])
  {
    var results := [ResultSet(rs), UpdateCount(3), ResultSet(rs)];
    assert results[1..][1..] == [ResultSet(rs)];
    assert LeadingResultSets(results[1..]) == 0;
    assert results[1..][..0] == [];
    AppendSilent(Output(render(rs), []));
    DispatchAllSnoc([], ResultSet(rs), render);
    assert [] + [ResultSet(rs)] == results[..1];
    DispatchAllSnoc(results[..1], UpdateCount(3), render);
    assert results[..1] + [UpdateCount(3)] == results[..2];
    DispatchAllSnoc(results[..2], ResultSet(rs), render);
    assert results[..2] + [ResultSet(rs)] == results;
    assert render(rs) + "" == render(rs);
  }

  /** The text of an update-count line, e.g. for a count of 3. */
  lemma UpdateCountText()
    ensures StderrText([UpdateRowCount(3)]) == "### UPDATE ROW COUNT: 3\n"
    ensures StderrText([UpdateRowCount(NoMoreResults)]) == "### UPDATE ROW COUNT: -1\n"
  {
  }
}

=== FILE: options.dfy ===
/** Optional values: the model's stand-in for Java's nullable references. */
module Options {

  /** `None` plays the role of Java's `null`. */
  datatype Option<+T> = None | Some(value: T) {

    /** The value, or `default` when there is none. */
    function GetOr(default: T): T {
      match this
      case Some(v) => v
      case None => default
    }
  }

  /** Looks `key` up in `m`, giving `None` when it is absent. */
  function Lookup<K, V>(m: map<K, V>, key: K): Option<V> {
    if key in m then Some(m[key]) else None
  }
}

=== FILE: program.dfy ===
/** `main` as a function of its inputs: the properties, the environment and
    the database's answers. It resolves the connection and the rendering
    settings, selects the statements and runs them in order; the first
    failing statement ends the run. */
module Program {
  import opened Delimited
  import opened Config
  import opened Selection
  import opened Dispatch

  /** The driver's answer to `Statement.execute` for one SQL text. On
      failure, `thrownText` is what `main`'s handler prints for the thrown
      exception: `Throwable.toString()`, the exception's class name, then
      `": "` and the localized message when there is one. */
  datatype ExecResponse =
    | Executed(results: seq<StmtResult>)
    | ExecFailed(thrownText: string)

  /** The driver's answer to `Statement.executeQuery` for one query;
      `thrownText` is the exception's `toString()`, as for `ExecFailed`. */
  datatype QueryResponse =
    | Queried(rs: ResultSetData)
    | QueryFailed(thrownText: string)

  /** The database behind the connection. `execute` answers a statement
      given the statements already executed on this connection, so a
      statement sees the effects of the earlier ones and the same text may be
      answered differently the second time. `executeQuery` answers the single
      query, the only statement a query run sends. */
  datatype Database = Database(
    execute: (seq<string>, string) -> ExecResponse,
    executeQuery: string -> QueryResponse)

  /** The connection call `main` makes and what it writes. */
  datatype RunOutput = RunOutput(connection: ConnectionCall, output: Output)

  /** The renderer `execute` and `executeQuery` both use. */
  function RendererFor(cfg: FormatConfig): Renderer {
    rs => FormatResultSet(rs, cfg)
  }

  /** `executeQuery` for the single query, with `main`'s handler on failure:
      the rendering on standard output and nothing on standard error when the
      query succeeds; otherwise nothing on standard output, and the query
      followed by the exception on standard error. */
  function RunQuery(query: string, db: Database, cfg: FormatConfig): (out: Output)
    ensures out.stderr == [] <==> db.executeQuery(query).Queried?
    ensures db.executeQuery(query).Queried? ==> out.stdout == FormatResultSet(db.executeQuery(query).rs, cfg)
    ensures db.executeQuery(query).QueryFailed? ==>
              out.stdout == "" && out.stderr == [ErrorQuery(query), Exception(db.executeQuery(query).thrownText)]
  {
    match db.executeQuery(query)
    case Queried(rs) => Output(FormatResultSet(rs, cfg), [])
    case QueryFailed(thrownText) => Output("", [ErrorQuery(query), Exception(thrownText)])
  }

  /** A failing query writes exactly two lines on standard error: the query,
      then the exception. */
  lemma QueryFailureText(query: string, db: Database, cfg: FormatConfig)
    requires db.executeQuery(query).QueryFailed?
    ensures StderrText(RunQuery(query, db, cfg).stderr)
         == "### ERROR QUERY: " + query + "\n" + "### EXCEPTION: " + db.executeQuery(query).thrownText + "\n"
  {
    var ds := RunQuery(query, db, cfg).stderr;
    var texts := seq(|ds|, i requires 0 <= i < |ds| => DiagnosticText(ds[i]));
    assert texts == [DiagnosticText(ds[0])] + [DiagnosticText(ds[1])];
    ConcatCons(DiagnosticText(ds[0]), [DiagnosticText(ds[1])]);
  }

  // ---------------------------------------------------------------------------
  // The numbered statements

  /** Which loop handles one statement's results: `execute`'s loop as
      written, or the loop that handles every result (see `Dispatch`). */
  datatype ResultLoop = AsWritten | EveryResult

  function DispatchWith(loop: ResultLoop, results: seq<StmtResult>, render: Renderer): Output {
    match loop
    case AsWritten => DispatchAsWritten(results, render)
    case EveryResult => DispatchAll(results, render)
  }

  /** The driver's answer to statement `i` of a batch, sent after statements
      `0 .. i-1`. */
  function Answer(stmts: seq<string>, i: nat, db: Database): ExecResponse
    requires i < |stmts|
  {
    db.execute(stmts[..i], stmts[i])
  }

  /** `execute` for statements `i ..` of the batch, in order; a failure
      reports the statement and the exception and ends the run. */
  function RunFrom(stmts: seq<string>, i: nat, db: Database, cfg: FormatConfig, loop: ResultLoop): Output
    requires i <= |stmts|
    decreases |stmts| - i
  {
    if i == |stmts| then Silent
    else
      match Answer(stmts, i, db)
      case ExecFailed(thrownText) => Output("", [ErrorSql(stmts[i]), Exception(thrownText)])
      case Executed(results) => Append(DispatchWith(loop, results, RendererFor(cfg)), RunFrom(stmts, i + 1, db, cfg, loop))
  }

  /** The numbered run as the program performs it. */
  function RunBatch(stmts: seq<string>, db: Database, cfg: FormatConfig): Output {
    RunFrom(stmts, 0, db, cfg, AsWritten)
  }

  /** The numbered run with every result of every statement handled. */
  function RunBatchIntended(stmts: seq<string>, db: Database, cfg: FormatConfig): Output {
    RunFrom(stmts, 0, db, cfg, EveryResult)
  }

  /** The whole program. */
  function Run(p: Properties, env: Environment, db: Database): (r: RunOutput)
    ensures r.connection.url == GetProperty(p, "url", TestUrl)
    ensures r.connection.WithCredentials? <==>
              ("MYSQL_USER" in env || "user" in p) && ("MYSQL_PASSWORD" in env || "password" in p)
    ensures GetProperty(p, "sql.1", "") == "" ==>
              r.output == RunQuery(GetProperty(p, "query", TestQuery), db, Settings(p))
    ensures GetProperty(p, "sql.1", "") == "" && "query" !in p ==>
              r.output == RunQuery(TestQuery, db, Settings(p))
    ensures GetProperty(p, "sql.1", "") != "" ==>
              r.output == RunBatch(BatchFrom(p, 1), db, Settings(p))
  {
    var cfg := Settings(p);
    var output :=
      match SelectStatements(p)
      case Batch(stmts) => RunBatch(stmts, db, cfg)
      case SingleQuery(query) => RunQuery(query, db, cfg);
    RunOutput(ResolveConnection(p, env), output)
  }

  /** Every statement of the batch executes. */
  predicate AllExecute(stmts: seq<string>, db: Database) {
    forall i :: 0 <= i < |stmts| ==> Answer(stmts, i, db).Executed?
  }

  /** Some statement from index `i` on fails. */
  predicate FailsFrom(stmts: seq<string>, i: nat, db: Database) {
    exists k :: i <= k < |stmts| && Answer(stmts, k, db).ExecFailed?
  }

  /** Standard error carries an `### ERROR SQL` line. */
  predicate ReportsFailure(out: Output) {
    exists d :: d in out.stderr && d.ErrorSql?
  }

  /** Either loop reports only update counts on standard error. */
  lemma {:induction false} DispatchReportsOnlyCounts(loop: ResultLoop, results: seq<StmtResult>, render: Renderer)
    ensures forall d :: d in DispatchWith(loop, results, render).stderr ==> d.UpdateRowCount?
  {
    if loop == EveryResult || |results| > 0 {
      var rest := if loop == EveryResult then results else results[1..][..LeadingResultSets(results[1..])];
      DispatchAllStreams(rest, render);
      assert forall d :: d in CountNotes(UpdateCountsOf(rest)) ==> d.UpdateRowCount?;
    }
  }

  lemma {:induction false} RunFromFailureIff(stmts: seq<string>, i: nat, db: Database, cfg: FormatConfig, loop: ResultLoop)
    requires i <= |stmts|
    ensures ReportsFailure(RunFrom(stmts, i, db, cfg, loop)) <==> FailsFrom(stmts, i, db)
    decreases |stmts| - i
  {
    if i < |stmts| {
      var out := RunFrom(stmts, i, db, cfg, loop);
      match Answer(stmts, i, db)
      case ExecFailed(thrownText) =>
        assert ErrorSql(stmts[i]) in out.stderr;
      case Executed(results) =>
        var first := DispatchWith(loop, results, RendererFor(cfg));
        var rest := RunFrom(stmts, i + 1, db, cfg, loop);
        RunFromFailureIff(stmts, i + 1, db, cfg, loop);
        DispatchReportsOnlyCounts(loop, results, RendererFor(cfg));
        assert out.stderr == first.stderr + rest.stderr;
        if ReportsFailure(out) {
          var d :| d in out.stderr && d.ErrorSql?;
          assert d in rest.stderr;
        }
        if FailsFrom(stmts, i + 1, db) {
          var d :| d in rest.stderr && d.ErrorSql?;
          assert d in out.stderr;
        }
        if FailsFrom(stmts, i, db) {
          var k :| i <= k < |stmts| && Answer(stmts, k, db).ExecFailed?;
          assert k != i;
        }
    }
  }

  /** A run reports a failed statement if and only if some statement of the
      batch fails. */
  lemma RunBatchFailureIff(stmts: seq<string>, db: Database, cfg: FormatConfig)
    ensures ReportsFailure(RunBatch(stmts, db, cfg)) <==> !AllExecute(stmts, db)
  {
    RunFromFailureIff(stmts, 0, db, cfg, AsWritten);
  }

  /** The answers to statements `0 .. k` are the same within the prefix. */
  lemma AnswerOfPrefix(stmts: seq<string>, db: Database, i: nat, k: nat)
    requires i <= k < |stmts|
    ensures Answer(stmts[..k + 1], i, db) == Answer(stmts, i, db)
  {
    assert stmts[..k + 1][..i] == stmts[..i];
  }

  lemma {:induction false} RunFromPrefix(stmts: seq<string>, i: nat, db: Database, cfg: FormatConfig, loop: ResultLoop, k: nat)
    requires i <= k < |stmts| && Answer(stmts, k, db).ExecFailed?
    ensures RunFrom(stmts, i, db, cfg, loop) == RunFrom(stmts[..k + 1], i, db, cfg, loop)
    decreases k - i
  {
    var prefix := stmts[..k + 1];
    AnswerOfPrefix(stmts, db, i, k);
    assert prefix[i] == stmts[i];
    if i < k {
      RunFromPrefix(stmts, i + 1, db, cfg, loop, k);
      if Answer(stmts, i, db).Executed? {
        var head := DispatchWith(loop, Answer(stmts, i, db).results, RendererFor(cfg));
        assert RunFrom(stmts, i, db, cfg, loop) == Append(head, RunFrom(stmts, i + 1, db, cfg, loop));
        assert RunFrom(prefix, i, db, cfg, loop) == Append(head, RunFrom(prefix, i + 1, db, cfg, loop));
      }
    }
  }

  /** Nothing after the first failing statement runs: the run's output is the
      output of the statements up to and including the failing one, whatever
      the database would answer to the later ones. */
  lemma RunBatchStopsAtFailure(stmts: seq<string>, db: Database, cfg: FormatConfig, k: nat)
    requires k < |stmts| && Answer(stmts, k, db).ExecFailed?
    ensures RunBatch(stmts, db, cfg) == RunBatch(stmts[..k + 1], db, cfg)
  {
    RunFromPrefix(stmts, 0, db, cfg, AsWritten, k);
  }

  lemma {:induction false} RunFromFailureReported(stmts: seq<string>, i: nat, db: Database, cfg: FormatConfig, k: nat)
    requires i <= k < |stmts| && Answer(stmts, k, db).ExecFailed?
    requires forall j :: i <= j < k ==> Answer(stmts, j, db).Executed?
    ensures var err := RunFrom(stmts, i, db, cfg, AsWritten).stderr;
            && |err| >= 2
            && err[|err| - 2] == ErrorSql(stmts[k])
            && err[|err| - 1] == Exception(Answer(stmts, k, db).thrownText)
    decreases k - i
  {
    if i < k {
      RunFromFailureReported(stmts, i + 1, db, cfg, k);
    }
  }

  /** A failing statement after successful ones ends standard error with the
      statement's text and the exception, in that order. */
  lemma RunBatchFailureReported(stmts: seq<string>, db: Database, cfg: FormatConfig, k: nat)
    requires k < |stmts| && Answer(stmts, k, db).ExecFailed?
    requires forall j :: 0 <= j < k ==> Answer(stmts, j, db).Executed?
    ensures var err := RunBatch(stmts, db, cfg).stderr;
            && |err| >= 2
            && err[|err| - 2] == ErrorSql(stmts[k])
            && err[|err| - 1] == Exception(Answer(stmts, k, db).thrownText)
  {
    RunFromFailureReported(stmts, 0, db, cfg, k);
  }

  /** The same statement text can succeed and then fail, as a repeated insert
      on a unique key does: the run reports the row count, then the failing
      statement and its exception. */
  lemma RepeatedStatementReported(s: string, m: string, db: Database, cfg: FormatConfig)
    requires db.execute([], s) == Executed([UpdateCount(1)])
    requires db.execute([s], s) == ExecFailed(m)
    ensures RunBatch([s, s], db, cfg) == Output("", [UpdateRowCount(1), ErrorSql(s), Exception(m)])
  {
    var stmts := [s, s];
    assert stmts[..0] == [] && stmts[..1] == [s];
    var counted := DispatchAsWritten([UpdateCount(1)], RendererFor(cfg));
    assert counted == Output("", [UpdateRowCount(1)]);
    assert RunFrom(stmts, 1, db, cfg, AsWritten) == Output("", [ErrorSql(s), Exception(m)]);
    assert RunFrom(stmts, 0, db, cfg, AsWritten) == Append(counted, RunFrom(stmts, 1, db, cfg, AsWritten));
  }

  /** The standard output of each statement's results, in statement order. */
  function StatementOutputs(stmts: seq<string>, db: Database, cfg: FormatConfig): seq<string>
    requires AllExecute(stmts, db)
  {
    seq(|stmts|, i requires 0 <= i < |stmts| && AllExecute(stmts, db) =>
      DispatchAsWritten(Answer(stmts, i, db).results, RendererFor(cfg)).stdout)
  }

  lemma {:induction false} RunFromStdout(stmts: seq<string>, i: nat, db: Database, cfg: FormatConfig)
    requires i <= |stmts| && AllExecute(stmts, db)
    ensures RunFrom(stmts, i, db, cfg, AsWritten).stdout == Concat(StatementOutputs(stmts, db, cfg)[i..])
    decreases |stmts| - i
  {
    var outs := StatementOutputs(stmts, db, cfg);
    if i < |stmts| {
      RunFromStdout(stmts, i + 1, db, cfg);
      assert outs[i..] == [outs[i]] + outs[i + 1..];
      ConcatCons(outs[i], outs[i + 1..]);
    } else {
      assert outs[i..] == [];
    }
  }

  /** When every statement executes, standard output is each statement's
      output in statement order, with nothing between them. */
  lemma RunBatchStdout(stmts: seq<string>, db: Database, cfg: FormatConfig)
    requires AllExecute(stmts, db)
    ensures RunBatch(stmts, db, cfg).stdout == Concat(StatementOutputs(stmts, db, cfg))
  {
    RunFromStdout(stmts, 0, db, cfg);
    assert StatementOutputs(stmts, db, cfg)[0..] == StatementOutputs(stmts, db, cfg);
  }

  /** The loop as written handles every result of this statement's answer:
      there is a first result and only result sets follow it. */
  predicate CompleteAsWritten(r: ExecResponse) {
    r.Executed? ==> |r.results| >= 1 && forall j :: 1 <= j < |r.results| ==> r.results[j].ResultSet?
  }

  lemma {:induction false} RunFromAgrees(stmts: seq<string>, i: nat, db: Database, cfg: FormatConfig)
    requires i <= |stmts|
    requires forall j :: i <= j < |stmts| ==> CompleteAsWritten(Answer(stmts, j, db))
    ensures RunFrom(stmts, i, db, cfg, AsWritten) == RunFrom(stmts, i, db, cfg, EveryResult)
    decreases |stmts| - i
  {
    if i < |stmts| {
      RunFromAgrees(stmts, i + 1, db, cfg);
      var answer := Answer(stmts, i, db);
      assert CompleteAsWritten(answer);
      if answer.Executed? {
        AsWrittenCompleteWithoutLaterCounts(answer.results, RendererFor(cfg));
      }
    }
  }

  /** When no statement's answer has an update count after its first result,
      the run as written writes exactly what handling every result writes. */
  lemma RunBatchAgreesWithIntended(stmts: seq<string>, db: Database, cfg: FormatConfig)
    requires forall j :: 0 <= j < |stmts| ==> CompleteAsWritten(Answer(stmts, j, db))
    ensures RunBatch(stmts, db, cfg) == RunBatchIntended(stmts, db, cfg)
  {
    RunFromAgrees(stmts, 0, db, cfg);
  }

  /** A statement answered by one result set prints the same through
      `execute` as through `executeQuery`: the two rendering blocks agree. */
  lemma ExecuteMatchesExecuteQuery(sql: string, rs: ResultSetData, db: Database, cfg: FormatConfig)
    requires db.execute([], sql) == Executed([ResultSet(rs)])
    requires db.executeQuery(sql) == Queried(rs)
    ensures RunBatch([sql], db, cfg) == RunQuery(sql, db, cfg)
  {
    assert [sql][..0] == [];
    var printed := DispatchAsWritten([ResultSet(rs)], RendererFor(cfg));
    SingleResultSetMatchesQuery(rs, RendererFor(cfg));
    AppendSilent(printed);
    assert RunFrom([sql], 1, db, cfg, AsWritten) == Silent;
    assert RunBatch([sql], db, cfg) == Append(printed, Silent);
  }
}

=== FILE: selection.dfy ===
/** Which statements `main` runs: the numbered list `sql.1`, `sql.2`, ...
    when `sql.1` is set and non-empty, otherwise the single `query`. */
module Selection {
  import opened Decimal
  import opened Config

  /** Java's `Short.MAX_VALUE`, the exclusive bound of the numbered loop. */
  const ShortMaxValue: nat := 32767

  /** The most statements the numbered loop can run: indices 1 .. 32766. */
  const MaxStatements: nat := ShortMaxValue - 1

  /** The key `"sql." + i`. */
  function SqlKey(i: nat): string {
    "sql." + NatToDecimal(i)
  }

  /** The two ways `main` runs SQL: each numbered statement through `execute`,
      or one query through `executeQuery`. */
  datatype Plan =
    | Batch(statements: seq<string>)
    | SingleQuery(query: string)

  /** The numbered statement `i`, or empty when the key is absent. */
  function NumberedStatement(p: Properties, i: nat): string {
    GetProperty(p, SqlKey(i), "")
  }

  /** The statements from index `i` on, up to the first empty or absent key
      or the index bound. */
  function BatchFrom(p: Properties, i: nat): seq<string>
    requires i >= 1
    decreases ShortMaxValue - i
  {
    if i >= ShortMaxValue then []
    else if NumberedStatement(p, i) == "" then []
    else [NumberedStatement(p, i)] + BatchFrom(p, i + 1)
  }

  /** The statement selection at the top of `main`. */
  function SelectStatements(p: Properties): Plan {
    if GetProperty(p, "sql.1", "") != "" then Batch(BatchFrom(p, 1))
    else SingleQuery(GetProperty(p, "query", TestQuery))
  }

  /** `stmts` is `sql.1 .. sql.k`, all non-empty, and the run stopped for a
      reason: `sql.(k+1)` is empty or absent, or the index bound was reached. */
  ghost predicate IsMaximalRun(p: Properties, stmts: seq<string>) {
    && |stmts| <= MaxStatements
    && (forall j :: 0 <= j < |stmts| ==> stmts[j] != "" && stmts[j] == NumberedStatement(p, j + 1))
    && (|stmts| < MaxStatements ==> NumberedStatement(p, |stmts| + 1) == "")
  }

  /** The loop of `main` as written: `for (i = 1; i < Short.MAX_VALUE; i++)`,
      stopping at the first empty statement. */
  method CollectBatch(p: Properties) returns (stmts: seq<string>)
    ensures IsMaximalRun(p, stmts)
  {
    stmts := [];
    var i := 1;
    while i < ShortMaxValue
      invariant 1 <= i <= ShortMaxValue
      invariant |stmts| == i - 1
      invariant forall j :: 0 <= j < |stmts| ==> stmts[j] != "" && stmts[j] == NumberedStatement(p, j + 1)
    {
      var sql := GetProperty(p, SqlKey(i), "");
      if sql != "" {
        stmts := stmts + [sql];
      } else {
        break;
      }
      i := i + 1;
    }
  }

  lemma {:induction false} BatchFromIsRun(p: Properties, i: nat)
    requires 1 <= i <= ShortMaxValue
    ensures |BatchFrom(p, i)| <= ShortMaxValue - i
    ensures forall j :: 0 <= j < |BatchFrom(p, i)| ==>
              BatchFrom(p, i)[j] != "" && BatchFrom(p, i)[j] == NumberedStatement(p, i + j)
    ensures i + |BatchFrom(p, i)| < ShortMaxValue ==> NumberedStatement(p, i + |BatchFrom(p, i)|) == ""
    decreases ShortMaxValue - i
  {
    if i < ShortMaxValue && NumberedStatement(p, i) != "" {
      BatchFromIsRun(p, i + 1);
    }
  }

  /** Two maximal runs of the same properties are the same list. */
  lemma MaximalRunUnique(p: Properties, a: seq<string>, b: seq<string>)
    requires IsMaximalRun(p, a) && IsMaximalRun(p, b)
    ensures a == b
  {
    if |a| < |b| {
      RunEntryNonEmpty(p, b, |a|);
      assert false;
    } else if |b| < |a| {
      RunEntryNonEmpty(p, a, |b|);
      assert false;
    }
  }

  lemma RunEntryNonEmpty(p: Properties, stmts: seq<string>, j: nat)
    requires IsMaximalRun(p, stmts) && j < |stmts|
    ensures NumberedStatement(p, j + 1) != ""
  {
    assert stmts[j] != "" && stmts[j] == NumberedStatement(p, j + 1);
  }

  /** The numbered list is chosen exactly when `sql.1` is non-empty, and then
      it is the maximal run from `sql.1` (so at least one statement); otherwise
      the single query is `query`, or the test query when `query` is absent. */
  lemma SelectStatementsSpec(p: Properties)
    ensures SelectStatements(p).Batch? <==> GetProperty(p, "sql.1", "") != ""
    ensures SelectStatements(p).Batch? ==>
              IsMaximalRun(p, SelectStatements(p).statements) && |SelectStatements(p).statements| >= 1
    ensures SelectStatements(p).SingleQuery? ==>
              SelectStatements(p).query == (if "query" in p then p["query"] else TestQuery)
  {
    BatchFromIsRun(p, 1);
    assert SqlKey(1) == "sql.1";
  }

  /** The loop of `main` and the functional selection agree. */
  lemma CollectBatchAgrees(p: Properties, stmts: seq<string>)
    requires IsMaximalRun(p, stmts)
    ensures stmts == BatchFrom(p, 1)
  {
    BatchFromIsRun(p, 1);
    MaximalRunUnique(p, stmts, BatchFrom(p, 1));
  }
}
